=== FILE: README.md ===
# Motion-capture chunker, modelled in Dafny

The chunker splits motion-capture recordings into fixed-length, overlapping
windows for training. It has two parts:

- `chunk_mocap_file` loads one `(joints, time, dims)` array and transposes it
  to `(time, joints, dims)`. It cuts the time axis into windows
  `[start, start + window_size)` with `start` running over
  `range(0, T - window_size + 1, step_size)`. It stacks the windows into one
  array and describes each window with a record
  `{id, file, start, end, chunk_id}`.
- `chunk_all_files` chunks every `.npy` file of a directory in sorted path
  order. It saves each file's stacked chunks as `<name>_chunks.npy` in the
  output directory and writes the records of all files, concatenated, as one
  JSON document.

The model is functional. Arrays are immutable grids with explicit shapes. The
innermost coordinate axis is an abstract element type `F`. Both operations are
pure functions that return either their result or the error the Python code
would raise.

Modules:

- `Results`: the `Result` type and the `ValueError`s that can escape.
- `Arrays`: numpy `transpose(1, 0, 2)`, basic slicing `a[lo:hi]` (negative and
  out-of-range bounds are normalised as numpy does) and `np.stack`.
- `PyRange`: Python's `range`, including a zero step (raises) and negative
  steps.
- `Decimal`: `str()` of an integer, with a parser that inverts it.
- `Paths`: `os.path.basename`, the root part of `os.path.splitext` (with its
  leading-dot rule), `os.path.join`, and the names `*.npy` matches.
- `StrOrder`: Python's string order and `sorted` on a list of paths.
- `Chunker`: `chunk_mocap_file`.
  - `ChunkFrames` is the body after the transpose.
  - `ChunkFile` is the whole function.
- `Batch`: `chunk_all_files`.
  - `Process` is the loop.
  - `ChunkAllFiles` sorts the listing first.
  - A run is the list of `np.save` calls made plus how the run ended: the
    metadata document written, or the file whose processing raised.

The environment is passed in as inputs:

- The directory listing glob returns is a `seq<string>`.
- The files `np.load` can read are a `map` from path to array. A path missing
  from the map fails to load.

### Where the code's behaviour is surprising

- **Files shorter than the window.** Such a file does not yield zero
  chunks: the `range` at line 19 is empty, so `np.stack([])` at line 34
  raises `ValueError`. The model returns
  `Err(NeedAtLeastOneArray)` (`Chunker.NoWindowFails`). Because nothing in
  `chunk_all_files` catches it, the whole batch stops at that file:
  - the arrays of the files before it are already saved;
  - the metadata JSON is never written (`Batch.ShortFileAborts`).
- **Negative step.** A negative `step_size` does not always produce zero
  windows. With `T <= window_size - 2` the range is non-empty and starts at
  0. When also `step_size > T - window_size + 1`, it goes on to negative
  starts, which numpy reads as offsets from the end before clamping the
  slice. Those cases are modelled as Python evaluates them.
- **Record ids.** The record `id` is always `f"{file}_{start}_{end}"`. The
  model therefore derives it from the other three fields (`Meta.Id`)
  instead of storing a fourth copy.

## Model

| member | source | states |
|---|---|---|
| Arrays.Transpose | src/data/chunker.py:11 | The axes swap: the result has shape (T, joints), and its entry `[t][j]` is the loaded array's entry `[j][t]`. |
| Arrays.TransposeInvolutive | src/data/chunker.py:11 | Transposing twice gives back the original array, so the swap loses and invents no data. |
| Arrays.ClampIndex | src/data/chunker.py:21 | A slice bound: an in-range bound is kept; a negative one counts from the end; anything beyond either end is clamped to `0` or `n`. |
| Arrays.Slice | src/data/chunker.py:21 | `data[start:end]` keeps the joint count and never exceeds the frame count. When `0 <= start <= end <= T` it is exactly frames `start..end`. |
| Arrays.Stack | src/data/chunker.py:34 | `np.stack` succeeds iff the list is non-empty and all shapes equal the first one's. An empty list gives `NeedAtLeastOneArray`, and a non-empty list with differing shapes gives `ShapeMismatch`. On success the k-th item is the k-th array and the shape is kept. |
| PyRange.Range | src/data/chunker.py:19 | `range(0, stop, step)` raises `ValueError` iff the step is 0. Otherwise its k-th value is `k * step`. It has `(stop - 1) / step + 1` values for a positive step and `(-stop - 1) / -step + 1` for a negative one, and none when `stop` is not past 0 in the step's direction. |
| PyRange.RangeBounds | src/data/chunker.py:19 | Every value lies in `[start, stop)` for a positive step (`(stop, start]` for a negative one). The range is empty iff `stop` is not past `start`. The last value is the last one before `stop`. |
| PyRange.RangeElement | src/data/chunker.py:19 | The k-th value of the range is `start + k*step`. |
| PyRange.RangeSuccessor | src/data/chunker.py:19 | Consecutive values differ by exactly `step`. |
| PyRange.RangeLength | src/data/chunker.py:19 | For a positive step, `range(0, stop, step)` has `(stop - 1) / step + 1` values when `stop > 0`, and none otherwise. |
| PyRange.RangeStrictlyMonotone | src/data/chunker.py:19 | Values strictly increase with a positive step and strictly decrease with a negative one. |
| Decimal.NatToString | src/data/chunker.py:25 | The decimal text of a natural number is non-empty, all digits, and has no leading zero. |
| Decimal.IntToString | src/data/chunker.py:25 | `str(n)` is a non-empty run of digits with no leading zero, preceded by `-` exactly when `n < 0`, and never contains `_`. |
| Decimal.NatRoundTrip | src/data/chunker.py:25 | The value of the digits of `str(n)` is `n`. |
| Decimal.IntRoundTrip | src/data/chunker.py:25 | Parsing `str(n)` gives back `n` for every integer, negative ones included. |
| Paths.Basename | src/data/chunker.py:12 | `os.path.basename(p)` is the suffix of `p` after its last `/` and contains no `/`. A path without `/` is its own base name. |
| Paths.SplitExtRoot | src/data/chunker.py:12 | The root part of `os.path.splitext` is a prefix of the name. |
| Paths.SplitExtRule | src/data/chunker.py:12 | When the root is shorter than the name, it ends just before the last `.` and holds some character other than `.`, so leading dots stay in the root. Whenever a `.` follows some non-dot character, the root is shorter than the name. Together these fix the root exactly. |
| Paths.FileStem | src/data/chunker.py:12 | The file name recorded for a path never contains `/`. |
| Paths.StemOfGlobbedPath | src/data/chunker.py:51 | For every name `*.npy` matches (not starting with `.`), the file name plus `.npy` is the base name, so only the extension is stripped. |
| Paths.Join | src/data/chunker.py:59 | `os.path.join(dir, name)` is `name` itself when `name` is absolute. Otherwise it is `dir`, then one `/` unless `dir` is empty or already ends in `/`, then `name`. |
| Paths.BasenameOfJoin | src/data/chunker.py:59 | A name without `/` joined to any directory is the base name of the joined path. What precedes it is exactly the directory plus one `/`, or the directory alone when it is empty or already ends in `/`, so the file sits directly in that directory. |
| Paths.JoinInjective | src/data/chunker.py:59 | Joining one directory with two different relative names gives two different paths. |
| Text.SplitLast | src/data/chunker.py:25 | Splitting at the last separator gives a head and a separator-free tail that re-join to the input. It fails iff the separator is absent. |
| Text.SplitLastSeparator | src/data/chunker.py:25 | Splitting `head + "_" + tail` at its last `_` gives back `head` and `tail` whenever `tail` has no `_`. |
| StrOrder.LeTotal | src/data/chunker.py:51 | Any two paths are comparable in Python's string order. |
| StrOrder.LeAntisymmetric | src/data/chunker.py:51 | Two strings ordered both ways are equal. |
| StrOrder.LeTransitive | src/data/chunker.py:51 | The string order is transitive. |
| StrOrder.Insert | src/data/chunker.py:51 | Inserting into a sorted list keeps it sorted and adds exactly that one element. |
| StrOrder.Sort | src/data/chunker.py:51 | `sorted(paths)` is sorted and is a permutation of its input. |
| StrOrder.SortedUnique | src/data/chunker.py:51 | Two sorted lists with the same elements are equal. |
| StrOrder.SortDeterministic | src/data/chunker.py:51 | Sorting two listings with the same elements, in any order, gives the same list. |
| Chunker.MakeId | src/data/chunker.py:25 | The id `f"{file}_{start}_{end}"` decodes back to `(file, start, end)`, even when the file name has `_` in it. |
| Chunker.IdInjective | src/data/chunker.py:25 | Different `(file, start, end)` triples never share an id. |
| Chunker.ChunkFrames | src/data/chunker.py:13-34 | A zero step raises. On success there is one record and one chunk per value of `range(0, T - window_size + 1, step_size)`. The k-th record has `chunk_id == k`, `start` equal to the k-th range value, `end == start + window_size`, and the file name. |
| Chunker.ChunkFile | src/data/chunker.py:11-13 | The loaded array is transposed before cutting. The number of records follows the range over the array's axis 1 (time). Every chunk keeps the array's joint count, and every record names the file's stem. |
| Chunker.FullWindow | src/data/chunker.py:19-21 | With `window_size >= 0` and a positive step, every range start gives a window lying wholly inside the frames, exactly `window_size` long. |
| Chunker.StartIsMultiple | src/data/chunker.py:19 | The k-th window starts at `k * step_size`. |
| Chunker.ChunkCount | src/data/chunker.py:19 | With `window_size >= 1`, `step_size >= 1` and `window_size <= T` the result is a success with `(T - window_size) / step_size + 1` chunks and as many records. |
| Chunker.WindowsStack | src/data/chunker.py:34 | With a positive step all windows share one shape, so `np.stack` accepts any non-empty list of them. |
| Chunker.NoWindowFails | src/data/chunker.py:34 | The result is the empty-stack error iff no window exists: `T < window_size` for a positive step, `T >= window_size - 1` for a negative one. |
| Chunker.ChunkFramesSucceeds | src/data/chunker.py:19 | For positive window and step, chunking succeeds iff `window_size <= T`. |
| Chunker.WindowBounds | src/data/chunker.py:20-21 | With `window_size >= 1` and `step_size >= 1`, every window satisfies `0 <= start` and `end <= T`. Its chunk is exactly frames `start..end`, `window_size` of them. |
| Chunker.ChunksRectangular | src/data/chunker.py:34 | The stacked array is rectangular, and every frame has the source's joint count. With `window_size >= 1` and `step_size >= 1` every chunk has exactly `window_size` frames. |
| Chunker.StartsIncrease | src/data/chunker.py:19 | With a positive step, window starts strictly increase in emission order. |
| Chunker.SliceOverlap | src/data/chunker.py:21 | Two slices of one sequence that start `step` apart share `w - step` elements. |
| Chunker.WindowsOverlap | src/data/chunker.py:19-21 | With `window_size >= 1` and `step_size >= 1`, consecutive windows overlap by exactly `window_size - step_size` frames. When that is positive, the tail of chunk k equals the head of chunk k+1. |
| Chunker.FileIdsDistinct | src/data/chunker.py:24-30 | Within one file no two records share an id. |
| Chunker.RecordIdsDiffer | src/data/chunker.py:19-25 | Two records of one file have different starts and therefore different ids. |
| Chunker.ExampleHundredFrames | src/data/chunker.py:6-20 | With the defaults (30, 15), 100 frames give five windows: `[0,30)`, `[15,45)`, `[30,60)`, `[45,75)`, `[60,90)`. |
| Chunker.ChunkFileOutcome | src/data/chunker.py:11-34 | For a loaded array, the empty-stack error happens exactly when its time axis (axis 1) is too short for a window. For positive parameters, success is equivalent to `window_size <= T`, with `(T - window_size) / step_size + 1` chunks. |
| Chunker.ChunkOfRaw | src/data/chunker.py:11-21 | With `window_size >= 1` and `step_size >= 1`, chunk k holds the loaded array's frames `start..end`: entry `[t][j]` is the array's entry `[j][start + t]`, and `end <= T`. |
| Chunker.ChunkFileIds | src/data/chunker.py:12-28 | Every record of a file names its stem, and no two records share an id. |
| Batch.OutputPath | src/data/chunker.py:58-59 | The output path is the output directory, followed by one `/` unless the directory is empty or already ends in `/`, followed by a base name that is the input file's stem plus `_chunks.npy`. So the file sits directly inside the output directory. |
| Batch.ChunkOne | src/data/chunker.py:55 | Loading fails iff `np.load` cannot supply the path. A zero step raises. With positive parameters the file chunks iff its time axis (axis 1) holds at least `window_size` frames, and otherwise fails with the empty-stack error. |
| Batch.ChunkAllFiles | src/data/chunker.py:38-66 | The run completes iff every listed file chunks, and then one array per listed path is saved and the metadata goes to `metadata_path`. Otherwise it stops at a listed file whose failure it reports. |
| Batch.Process | src/data/chunker.py:53-66 | The loop saves each chunked file's array under `<output_dir>/<name>_chunks.npy`, in path order. It completes iff every file chunks. On completion all files are saved and the corpus is the in-order concatenation of the files' records, written to the metadata path. On failure it stops at the first failing file, with exactly the files before it saved. |
| Batch.ChunkAllFilesSorted | src/data/chunker.py:51-55 | The batch processes a sorted rearrangement of exactly the paths glob listed. |
| Batch.RunDeterministic | src/data/chunker.py:51 | Two listings with the same paths in different orders give identical runs. |
| Batch.FlattenMember | src/data/chunker.py:62 | A record is in the corpus iff it is the record of some file. |
| Batch.FlattenPrefix | src/data/chunker.py:62 | Records of earlier files stay an unaltered prefix of the corpus. |
| Batch.CorpusRecords | src/data/chunker.py:53-62 | With `window_size >= 1` and `step_size >= 1`, every corpus record is the `chunk_id`-th record of one listed file. It names that file, and its window lies inside that file's time axis; so `chunk_id` restarts at 0 per file. |
| Batch.CorpusTraceable | src/data/chunker.py:62 | Every corpus record names the stem of a listed file. |
| Batch.CorpusIdsDistinct | src/data/chunker.py:62 | When the listed files have distinct names, no two records of the whole corpus share an id. |
| Batch.AppendIdsDistinct | src/data/chunker.py:62 | Extending a corpus whose ids are distinct with records whose ids are distinct and new keeps all ids distinct. |
| Batch.OutputPathsDistinct | src/data/chunker.py:58-60 | Files with different names are saved to different output paths, so no save overwrites another. |
| Batch.GlobbedStemsDistinct | src/data/chunker.py:58 | Two files glob found under different base names have different file names. |
| Batch.CompletesIff | src/data/chunker.py:53-55 | With positive parameters, the batch completes iff every listed file loads and is at least `window_size` frames long. |
| Batch.ShortFileAborts | src/data/chunker.py:53-55 | A file shorter than the window ends the batch there with the empty-stack error: the files before it are saved, and nothing after it is. |

## Left out

- Reading and writing files (`np.load`, `np.save`, `json.dump`,
  `os.makedirs`) is not performed. Loading is a lookup in a given map, and
  saving is recorded as an entry of the run. Failures of writes, of
  `os.makedirs` and of opening the metadata file are not modelled.
- `glob` itself is not modelled. The listing is an input. `Paths.GlobNpy`
  states which names the pattern `*.npy` admits, for the lemmas that need it.
- The `print` progress messages have no effect on results and are left out.
- JSON formatting (`indent=4`), numpy memory layout, dtype and copy/aliasing
  are left out. The coordinate axis is the abstract type `F`, so its length
  and floating-point contents are not modelled.
- Arrays with other than three axes, which `transpose(1, 0, 2)` would reject,
  are not modelled. Every loaded array is assumed rectangular, as numpy
  arrays are.
- Python strings are code-point sequences. `StrOrder.Le` compares code
  points, which is what `sorted` does. No locale or Unicode normalisation
  applies.
- The `__main__` guard that calls `chunk_all_files()` with its defaults is
  represented only by `Batch.Defaults`.
- `src/utils/visualization.py` is not part of this model. It is open3d
  rendering, a sleep-driven animation loop, floating-point rotation and a
  colour table, all outside the chunker.
- Windows path behaviour (`\` separators, drive letters, `ntpath`) is not
  modelled. `Paths` follows POSIX `posixpath` only.
- Paths.FileStem: its own contract states only that the name has no `/`.
  The exact stripping of `.npy` is stated for the names glob returns by
  `Paths.StemOfGlobbedPath`. Other odd names (several dots, leading dots)
  are computed as `os.path.splitext` does, but no lemma describes them.

=== FILE: arrays.dfy ===
/**
  In-memory model of the numpy arrays the chunker handles. The last axis
  (spatial coordinates of one joint) is abstracted into the element type `F`,
  so a three-axis array is a `Grid<F>` and a stack of chunks a `Stacked<F>`.
  Shapes are stored explicitly so that zero-length axes keep their extent.
*/
module Arrays {
  import opened Results

  /** A two-axis array of `F`: `rows` x `cols`, row-major. */
  datatype Grid<F> = Grid(rows: nat, cols: nat, cells: seq<seq<F>>) {
    /** numpy arrays are rectangular: every row has `cols` entries. */
    predicate Valid() {
      |cells| == rows && forall i :: 0 <= i < |cells| ==> |cells[i]| == cols
    }
  }

  /** The result of `np.stack`: `|items|` arrays, each of shape `rows` x `cols`. */
  datatype Stacked<F> = Stacked(rows: nat, cols: nat, items: seq<seq<seq<F>>>) {
    predicate Valid() {
      forall i :: 0 <= i < |items| ==>
        |items[i]| == rows && forall t :: 0 <= t < |items[i]| ==> |items[i][t]| == cols
    }
  }

  /** Swaps the first two axes, as `transpose(1, 0, 2)` does. */
  function Transpose<F>(g: Grid<F>): (r: Grid<F>)
    requires g.Valid()
    ensures r.Valid()
    ensures r.rows == g.cols && r.cols == g.rows
    ensures forall t, j :: 0 <= t < r.rows && 0 <= j < r.cols ==> r.cells[t][j] == g.cells[j][t]
  {
    Grid(g.cols, g.rows, Columns(g.cells, g.cols))
  }

  /** Entry `t` of every row: one column of the array. */
  function Column<F>(cells: seq<seq<F>>, t: nat): (r: seq<F>)
    requires forall j :: 0 <= j < |cells| ==> t < |cells[j]|
    ensures |r| == |cells|
    ensures forall j :: 0 <= j < |cells| ==> r[j] == cells[j][t]
  {
    if |cells| == 0 then [] else [cells[0][t]] + Column(cells[1..], t)
  }

  /** The first `n` columns, in order. */
  function Columns<F>(cells: seq<seq<F>>, n: nat): (r: seq<seq<F>>)
    requires forall j :: 0 <= j < |cells| ==> n <= |cells[j]|
    ensures |r| == n
    ensures forall t :: 0 <= t < n ==> |r[t]| == |cells|
    ensures forall t, j :: 0 <= t < n && 0 <= j < |cells| ==> r[t][j] == cells[j][t]
  {
    if n == 0 then [] else Columns(cells, n - 1) + [Column(cells, n - 1)]
  }

  /** Transposing twice gives back the original array. */
  lemma TransposeInvolutive<F>(g: Grid<F>)
    requires g.Valid()
    ensures Transpose(Transpose(g)) == g
  {
    var t := Transpose(g);
    var r := Transpose(t);
    forall i | 0 <= i < |g.cells|
      ensures r.cells[i] == g.cells[i]
    {
      forall j | 0 <= j < g.cols
        ensures r.cells[i][j] == g.cells[i][j]
      {
        assert r.cells[i][j] == t.cells[j][i];
      }
    }
  }

  /**
    Python's normalisation of one slice bound against an axis of length `n`
    (step 1): a negative bound counts from the end, then the bound is clamped
    into `[0, n]`.
  */
  function ClampIndex(i: int, n: nat): (r: nat)
    ensures r <= n
    ensures 0 <= i <= n ==> r == i
    ensures i < 0 && 0 <= i + n ==> r == i + n
    ensures i + n < 0 ==> r == 0
    ensures n < i ==> r == n
  {
    if i < 0 then (if i + n < 0 then 0 else i + n)
    else if i > n then n
    else i
  }

  /** Basic slicing `g[a:b]` along the first axis. */
  function Slice<F>(g: Grid<F>, a: int, b: int): (r: Grid<F>)
    requires g.Valid()
    ensures r.Valid()
    ensures r.cols == g.cols && r.rows <= g.rows
    ensures 0 <= a <= b <= g.rows ==> r.rows == b - a && r.cells == g.cells[a..b]
  {
    var lo := ClampIndex(a, g.rows);
    var hi := ClampIndex(b, g.rows);
    var cells := if lo <= hi then g.cells[lo..hi] else [];
    Grid(|cells|, g.cols, cells)
  }

  /**
    `np.stack(arrays)`: fails on an empty list and on arrays of different
    shapes; otherwise joins them along a new leading axis.
  */
  function Stack<F>(arrays: seq<Grid<F>>): (r: Result<Stacked<F>, ValueError>)
    requires forall i :: 0 <= i < |arrays| ==> arrays[i].Valid()
    ensures r.Ok? <==>
      |arrays| > 0 &&
      forall i :: 0 <= i < |arrays| ==> arrays[i].rows == arrays[0].rows && arrays[i].cols == arrays[0].cols
    ensures r == Err(NeedAtLeastOneArray) <==> |arrays| == 0
    ensures r.Err? && |arrays| > 0 ==> r.error == ShapeMismatch
    ensures r.Ok? ==>
      && r.value.Valid()
      && r.value.rows == arrays[0].rows && r.value.cols == arrays[0].cols
      && |r.value.items| == |arrays|
      && forall i :: 0 <= i < |arrays| ==> r.value.items[i] == arrays[i].cells
  {
    if |arrays| == 0 then Err(NeedAtLeastOneArray)
    else if exists i :: 0 <= i < |arrays| && (arrays[i].rows != arrays[0].rows || arrays[i].cols != arrays[0].cols)
    then Err(ShapeMismatch)
    else
      var items := seq(|arrays|, i requires 0 <= i < |arrays| => arrays[i].cells);
      assert forall i :: 0 <= i < |items| ==> items[i] == arrays[i].cells && arrays[i].Valid();
      Ok(Stacked(arrays[0].rows, arrays[0].cols, items))
  }
}

=== FILE: batch.dfy ===
/**
  Batch orchestration, `chunk_all_files`: walks the sorted `.npy` paths,
  chunks each file, writes each file's stacked chunks under the output
  directory and gathers every file's records into one corpus.
*/
module Batch {
  import opened Results
  import opened Arrays
  import opened Chunker
  import Paths
  import StrOrder

  /**
    The parameters of `chunk_all_files`. `inputDir` only names where glob
    looks: the listing glob returns is passed to `ChunkAllFiles` directly.
  */
  datatype Config = Config(
    inputDir: string,
    outputDir: string,
    metadataPath: string,
    windowSize: int,
    stepSize: int)

  /** The default arguments of `chunk_all_files`. */
  const Defaults := Config("data/raw", "data/processed", "data/processed/chunk_metadata.json", 60, 50)

  /** Why a file stopped the batch: `np.load` failed, or chunking raised. */
  datatype Failure = LoadError | ChunkError(cause: ValueError)

  /** One `np.save(out_path, chunks)`. */
  datatype Saved<F> = Saved(path: string, chunks: Stacked<F>)

  /**
    How the batch ended: the metadata document written to `metadataPath`,
    or the exception that escaped the loop while processing `path`.
  */
  datatype Outcome =
    | Completed(metadataPath: string, corpus: seq<Meta>)
    | Aborted(path: string, failure: Failure)

  /** The arrays saved, in order, and how the run ended. */
  datatype Run<F> = Run(saved: seq<Saved<F>>, outcome: Outcome)

  /** The files `np.load` can read, each a rectangular (joints, time, dims) array. */
  predicate StoreValid<F>(store: map<string, Grid<F>>) {
    forall p :: p in store ==> store[p].Valid()
  }

  /**
    `os.path.join(output_dir, f"{file_name}_chunks.npy")`: a file directly
    inside the output directory, named after the input file's stem.
  */
  function OutputPath(outputDir: string, path: string): (r: string)
    ensures |outputDir| <= |r| && r[..|outputDir|] == outputDir
    ensures Paths.Basename(r) == Paths.FileStem(path) + "_chunks.npy"
    ensures var b := Paths.Basename(r);
      r[..|r| - |b|] == if |outputDir| == 0 || outputDir[|outputDir| - 1] == '/' then outputDir else outputDir + "/"
  {
    var name := Paths.FileStem(path) + "_chunks.npy";
    assert forall k :: 0 <= k < |name| ==> name[k] != '/';
    Paths.BasenameOfJoin(outputDir, name);
    Paths.Join(outputDir, name)
  }

  /**
    Loading then chunking one file. A path the store cannot supply fails to
    load; a zero step raises; with the usual parameters the file chunks
    exactly when its time axis (axis 1) holds at least one window, and is
    otherwise stopped by the empty-stack error.
  */
  function ChunkOne<F>(path: string, store: map<string, Grid<F>>, cfg: Config): (r: Result<FileChunks<F>, Failure>)
    requires StoreValid(store)
    ensures r == Err(LoadError) <==> path !in store
    ensures path in store && cfg.stepSize == 0 ==> r == Err(ChunkError(RangeStepZero))
    ensures path in store && cfg.windowSize >= 1 && cfg.stepSize >= 1 ==>
      && (r.Ok? <==> cfg.windowSize <= store[path].cols)
      && (r.Err? ==> r == Err(ChunkError(NeedAtLeastOneArray)))
    ensures r.Ok? ==> path in store && ChunkFile(path, store[path], cfg.windowSize, cfg.stepSize) == Ok(r.value)
    ensures r.Err? && path in store ==> ChunkFile(path, store[path], cfg.windowSize, cfg.stepSize) == Err(r.error.cause)
  {
    if path !in store then Err(LoadError)
    else
      ChunkFileOutcome(path, store[path], cfg.windowSize, cfg.stepSize);
      match ChunkFile(path, store[path], cfg.windowSize, cfg.stepSize)
      case Ok(fc) => Ok(fc)
      case Err(e) => Err(ChunkError(e))
  }

  predicate AllChunked<F>(paths: seq<string>, store: map<string, Grid<F>>, cfg: Config)
    requires StoreValid(store)
  {
    forall i :: 0 <= i < |paths| ==> ChunkOne(paths[i], store, cfg).Ok?
  }

  /** Each file's own record list, in path order. */
  function PerFile<F>(paths: seq<string>, store: map<string, Grid<F>>, cfg: Config): (r: seq<seq<Meta>>)
    requires StoreValid(store) && AllChunked(paths, store, cfg)
    ensures |r| == |paths|
  {
    seq(|paths|, i requires 0 <= i < |paths| => ChunkOne(paths[i], store, cfg).value.metadata)
  }

  /** The concatenation of a list of record lists. */
  function Flatten(ss: seq<seq<Meta>>): seq<Meta> {
    if |ss| == 0 then [] else ss[0] + Flatten(ss[1..])
  }

  /**
    The first `|saved|` paths were chunked and their arrays saved, in order,
    each under its own output name.
  */
  ghost predicate SavedInOrder<F>(saved: seq<Saved<F>>, paths: seq<string>, store: map<string, Grid<F>>, cfg: Config)
    requires StoreValid(store)
  {
    && |saved| <= |paths|
    && forall i :: 0 <= i < |saved| ==>
         && ChunkOne(paths[i], store, cfg).Ok?
         && saved[i] == Saved(OutputPath(cfg.outputDir, paths[i]), ChunkOne(paths[i], store, cfg).value.chunks)
  }

  lemma AllChunkedCons<F>(paths: seq<string>, store: map<string, Grid<F>>, cfg: Config)
    requires StoreValid(store) && |paths| > 0
    ensures AllChunked(paths, store, cfg) <==>
      ChunkOne(paths[0], store, cfg).Ok? && AllChunked(paths[1..], store, cfg)
  {
    assert forall i :: 1 <= i < |paths| ==> paths[i] == paths[1..][i - 1];
  }

  lemma PerFileCons<F>(paths: seq<string>, store: map<string, Grid<F>>, cfg: Config)
    requires StoreValid(store) && |paths| > 0 && AllChunked(paths, store, cfg)
    ensures AllChunked(paths[1..], store, cfg)
    ensures PerFile(paths, store, cfg) == [ChunkOne(paths[0], store, cfg).value.metadata] + PerFile(paths[1..], store, cfg)
  {
    AllChunkedCons(paths, store, cfg);
    var whole := PerFile(paths, store, cfg);
    var split := [ChunkOne(paths[0], store, cfg).value.metadata] + PerFile(paths[1..], store, cfg);
    assert |whole| == |split|;
    forall i | 0 <= i < |whole|
      ensures whole[i] == split[i]
    {
      if i > 0 {
        assert paths[1..][i - 1] == paths[i];
      }
    }
  }

  lemma SavedCons<F>(paths: seq<string>, store: map<string, Grid<F>>, cfg: Config, rest: seq<Saved<F>>)
    requires StoreValid(store) && |paths| > 0 && ChunkOne(paths[0], store, cfg).Ok?
    requires SavedInOrder(rest, paths[1..], store, cfg)
    ensures SavedInOrder(
      [Saved(OutputPath(cfg.outputDir, paths[0]), ChunkOne(paths[0], store, cfg).value.chunks)] + rest,
      paths, store, cfg)
  {
  }

  /**
    The loop of `chunk_all_files` over `paths`: the run completes exactly
    when every file chunks, and then the corpus is every file's records in
    path order; otherwise it stops at the first failing file, after having
    saved the arrays of the files before it, and writes no metadata.
  */
  function Process<F>(paths: seq<string>, store: map<string, Grid<F>>, cfg: Config): (r: Run<F>)
    requires StoreValid(store)
    ensures SavedInOrder(r.saved, paths, store, cfg)
    ensures r.outcome.Completed? <==> AllChunked(paths, store, cfg)
    ensures r.outcome.Completed? ==>
      && |r.saved| == |paths|
      && r.outcome.metadataPath == cfg.metadataPath
      && r.outcome.corpus == Flatten(PerFile(paths, store, cfg))
    ensures r.outcome.Aborted? ==>
      && |r.saved| < |paths|
      && r.outcome.path == paths[|r.saved|]
      && ChunkOne(paths[|r.saved|], store, cfg) == Err(r.outcome.failure)
  {
    if |paths| == 0 then Run([], Completed(cfg.metadataPath, []))
    else
      match ChunkOne(paths[0], store, cfg)
      case Err(f) => Run([], Aborted(paths[0], f))
      case Ok(fc) =>
        var rest := Process(paths[1..], store, cfg);
        var saved := [Saved(OutputPath(cfg.outputDir, paths[0]), fc.chunks)] + rest.saved;
        SavedCons(paths, store, cfg, rest.saved);
        AllChunkedCons(paths, store, cfg);
        match rest.outcome
        case Completed(mp, corpus) =>
          PerFileCons(paths, store, cfg);
          Run(saved, Completed(mp, fc.metadata + corpus))
        case Aborted(_, _) => Run(saved, rest.outcome)
  }

  /**
    `chunk_all_files`: the paths glob listed, processed in sorted order. The
    run completes exactly when every listed file chunks, saving one array per
    listed path; otherwise it stops at a listed file that failed.
  */
  function ChunkAllFiles<F>(listing: seq<string>, store: map<string, Grid<F>>, cfg: Config): (r: Run<F>)
    requires StoreValid(store)
    ensures r.outcome.Completed? <==> forall p :: p in listing ==> ChunkOne(p, store, cfg).Ok?
    ensures r.outcome.Completed? ==> |r.saved| == |listing| && r.outcome.metadataPath == cfg.metadataPath
    ensures r.outcome.Aborted? ==>
      && |r.saved| < |listing|
      && r.outcome.path in listing
      && ChunkOne(r.outcome.path, store, cfg) == Err(r.outcome.failure)
  {
    var paths := StrOrder.Sort(listing);
    AllChunkedMembers(paths, store, cfg);
    assert |paths| == |multiset(paths)| == |listing|;
    assert forall p :: p in paths <==> p in listing by {
      forall p
        ensures p in paths <==> p in listing
      {
        assert p in paths <==> p in multiset(paths);
        assert p in listing <==> p in multiset(listing);
      }
    }
    Process(paths, store, cfg)
  }

  /** Every path chunks exactly when every member of the list does. */
  lemma AllChunkedMembers<F>(paths: seq<string>, store: map<string, Grid<F>>, cfg: Config)
    requires StoreValid(store)
    ensures AllChunked(paths, store, cfg) <==> forall p :: p in paths ==> ChunkOne(p, store, cfg).Ok?
  {
    if AllChunked(paths, store, cfg) {
      forall p | p in paths
        ensures ChunkOne(p, store, cfg).Ok?
      {
        var i :| 0 <= i < |paths| && paths[i] == p;
      }
    }
  }

  /** The sorted listing is a rearrangement of what glob returned, and the run walks it in order. */
  lemma ChunkAllFilesSorted<F>(listing: seq<string>, store: map<string, Grid<F>>, cfg: Config)
    requires StoreValid(store)
    ensures exists paths ::
      && StrOrder.Sorted(paths)
      && multiset(paths) == multiset(listing)
      && ChunkAllFiles(listing, store, cfg) == Process(paths, store, cfg)
  {
    var paths := StrOrder.Sort(listing);
    assert StrOrder.Sorted(paths) && multiset(paths) == multiset(listing);
  }

  /**
    Because the paths are sorted first, the run depends only on which paths
    glob found, not on the order it listed them in.
  */
  lemma RunDeterministic<F>(l1: seq<string>, l2: seq<string>, store: map<string, Grid<F>>, cfg: Config)
    requires StoreValid(store)
    requires multiset(l1) == multiset(l2)
    ensures ChunkAllFiles(l1, store, cfg) == ChunkAllFiles(l2, store, cfg)
  {
    StrOrder.SortDeterministic(l1, l2);
  }

  /** A record belongs to the corpus exactly when it is some file's record. */
  lemma {:induction false} FlattenMember(ss: seq<seq<Meta>>, x: Meta)
    ensures x in Flatten(ss) <==> exists i, k :: 0 <= i < |ss| && 0 <= k < |ss[i]| && ss[i][k] == x
    decreases |ss|
  {
    if |ss| > 0 {
      FlattenMember(ss[1..], x);
      if x in Flatten(ss[1..]) {
        var i, k :| 0 <= i < |ss[1..]| && 0 <= k < |ss[1..][i]| && ss[1..][i][k] == x;
        assert ss[i + 1][k] == x;
      }
      if exists i, k :: 0 <= i < |ss| && 0 <= k < |ss[i]| && ss[i][k] == x {
        var i, k :| 0 <= i < |ss| && 0 <= k < |ss[i]| && ss[i][k] == x;
        if i > 0 {
          assert ss[1..][i - 1][k] == x;
        }
      }
    }
  }

  /** Earlier files' records are never altered by later files: they stay a prefix. */
  lemma {:induction false} FlattenPrefix(ss: seq<seq<Meta>>, n: nat)
    requires n <= |ss|
    ensures Flatten(ss[..n]) <= Flatten(ss)
    decreases n
  {
    if n > 0 {
      assert ss[..n][1..] == ss[1..][..n - 1];
      FlattenPrefix(ss[1..], n - 1);
    }
  }

  /**
    The record `x` came from `path`: its id decodes to it, it names the
    file's stem, and its window lies within that file's time axis.
  */
  ghost predicate RecordOf<F>(x: Meta, path: string, store: map<string, Grid<F>>, cfg: Config) {
    && path in store
    && Traceable(x)
    && x.file == Paths.FileStem(path)
    && 0 <= x.start
    && x.end == x.start + cfg.windowSize
    && x.end <= store[path].cols
  }

  /**
    Every corpus record is the `chunk_id`-th record of one listed file and
    satisfies the window invariant against that file's length.
  */
  lemma CorpusRecords<F>(paths: seq<string>, store: map<string, Grid<F>>, cfg: Config)
    requires StoreValid(store) && AllChunked(paths, store, cfg)
    requires cfg.windowSize >= 1 && cfg.stepSize >= 1
    ensures var ss := PerFile(paths, store, cfg);
      forall x :: x in Flatten(ss) ==>
        exists i :: 0 <= i < |paths| && RecordOf(x, paths[i], store, cfg) && x.chunkId < |ss[i]| && ss[i][x.chunkId] == x
  {
    var ss := PerFile(paths, store, cfg);
    forall x | x in Flatten(ss)
      ensures exists i :: 0 <= i < |paths| && RecordOf(x, paths[i], store, cfg) && x.chunkId < |ss[i]| && ss[i][x.chunkId] == x
    {
      FlattenMember(ss, x);
      var i, k :| 0 <= i < |ss| && 0 <= k < |ss[i]| && ss[i][k] == x;
      var path := paths[i];
      ChunkOfRaw(path, store[path], cfg.windowSize, cfg.stepSize, ChunkFile(path, store[path], cfg.windowSize, cfg.stepSize).value, k);
      ChunkFileIds(path, store[path], cfg.windowSize, cfg.stepSize);
      assert RecordOf(x, path, store, cfg);
    }
  }

  /** Every corpus record decodes to the stem of one of the listed files. */
  lemma CorpusTraceable<F>(paths: seq<string>, store: map<string, Grid<F>>, cfg: Config)
    requires StoreValid(store) && AllChunked(paths, store, cfg)
    ensures forall x :: x in Flatten(PerFile(paths, store, cfg)) ==>
      Traceable(x) && exists i :: 0 <= i < |paths| && x.file == Paths.FileStem(paths[i])
  {
    var ss := PerFile(paths, store, cfg);
    forall x | x in Flatten(ss)
      ensures Traceable(x) && exists i :: 0 <= i < |paths| && x.file == Paths.FileStem(paths[i])
    {
      FlattenMember(ss, x);
      var i, k :| 0 <= i < |ss| && 0 <= k < |ss[i]| && ss[i][k] == x;
      ChunkFileIds(paths[i], store[paths[i]], cfg.windowSize, cfg.stepSize);
    }
  }

  ghost predicate StemsDistinct(paths: seq<string>) {
    forall i, j :: 0 <= i < j < |paths| ==> Paths.FileStem(paths[i]) != Paths.FileStem(paths[j])
  }

  ghost predicate IdsDistinct(ms: seq<Meta>) {
    forall a, b :: 0 <= a < b < |ms| ==> ms[a].Id() != ms[b].Id()
  }

  /** With distinct file names, no two records of the whole corpus share an id. */
  lemma {:induction false} CorpusIdsDistinct<F>(paths: seq<string>, store: map<string, Grid<F>>, cfg: Config)
    requires StoreValid(store) && AllChunked(paths, store, cfg)
    requires StemsDistinct(paths)
    ensures IdsDistinct(Flatten(PerFile(paths, store, cfg)))
    decreases |paths|
  {
    if |paths| > 0 {
      PerFileCons(paths, store, cfg);
      var tail := paths[1..];
      assert StemsDistinct(tail) by {
        forall i, j | 0 <= i < j < |tail|
          ensures Paths.FileStem(tail[i]) != Paths.FileStem(tail[j])
        {
          assert tail[i] == paths[i + 1] && tail[j] == paths[j + 1];
        }
      }
      CorpusIdsDistinct(tail, store, cfg);
      var head := ChunkOne(paths[0], store, cfg).value.metadata;
      var rest := Flatten(PerFile(tail, store, cfg));
      assert Flatten(PerFile(paths, store, cfg)) == head + rest;
      ChunkFileIds(paths[0], store[paths[0]], cfg.windowSize, cfg.stepSize);
      CorpusTraceable(tail, store, cfg);
      forall x, y | x in head && y in rest
        ensures x.Id() != y.Id()
      {
        var k :| 0 <= k < |head| && head[k] == x;
        var j :| 0 <= j < |tail| && y.file == Paths.FileStem(tail[j]);
        assert tail[j] == paths[j + 1];
      }
      AppendIdsDistinct(head, rest);
    }
  }

  lemma AppendIdsDistinct(head: seq<Meta>, rest: seq<Meta>)
    requires IdsDistinct(head) && IdsDistinct(rest)
    requires forall x, y :: x in head && y in rest ==> x.Id() != y.Id()
    ensures IdsDistinct(head + rest)
  {
    var all := head + rest;
    forall a, b | 0 <= a < b < |all|
      ensures all[a].Id() != all[b].Id()
    {
      if a < |head| <= b {
        assert all[a] in head && all[b] == rest[b - |head|];
      } else if |head| <= a {
        assert all[a] == rest[a - |head|] && all[b] == rest[b - |head|];
      }
    }
  }

  /** Different file names give different output files, so no save overwrites another. */
  lemma OutputPathsDistinct(outputDir: string, p1: string, p2: string)
    requires Paths.FileStem(p1) != Paths.FileStem(p2)
    ensures OutputPath(outputDir, p1) != OutputPath(outputDir, p2)
  {
    var n1 := Paths.FileStem(p1) + "_chunks.npy";
    var n2 := Paths.FileStem(p2) + "_chunks.npy";
    assert n1[..|n1| - 11] == Paths.FileStem(p1) && n2[..|n2| - 11] == Paths.FileStem(p2);
    Paths.JoinInjective(outputDir, n1, n2);
  }

  /** Files glob found under distinct base names have distinct stems. */
  lemma GlobbedStemsDistinct(p1: string, p2: string)
    requires Paths.GlobNpy(Paths.Basename(p1)) && Paths.GlobNpy(Paths.Basename(p2))
    requires Paths.Basename(p1) != Paths.Basename(p2)
    ensures Paths.FileStem(p1) != Paths.FileStem(p2)
  {
    Paths.StemOfGlobbedPath(p1);
    Paths.StemOfGlobbedPath(p2);
  }

  /**
    With the usual parameters the batch completes exactly when every listed
    file loads and is at least `window_size` frames long.
  */
  lemma CompletesIff<F>(paths: seq<string>, store: map<string, Grid<F>>, cfg: Config)
    requires StoreValid(store) && cfg.windowSize >= 1 && cfg.stepSize >= 1
    ensures Process(paths, store, cfg).outcome.Completed? <==>
      forall i :: 0 <= i < |paths| ==> paths[i] in store && cfg.windowSize <= store[paths[i]].cols
  {
    forall i | 0 <= i < |paths| && paths[i] in store {
      ChunkFileOutcome(paths[i], store[paths[i]], cfg.windowSize, cfg.stepSize);
    }
  }

  /**
    A file shorter than `window_size` stops the whole batch at that file:
    the files before it are saved, nothing after it is, and no metadata
    document is written.
  */
  lemma ShortFileAborts<F>(paths: seq<string>, store: map<string, Grid<F>>, cfg: Config, n: nat)
    requires StoreValid(store) && cfg.windowSize >= 1 && cfg.stepSize >= 1
    requires n < |paths| && paths[n] in store && store[paths[n]].cols < cfg.windowSize
    requires forall i :: 0 <= i < n ==> ChunkOne(paths[i], store, cfg).Ok?
    ensures var r := Process(paths, store, cfg);
      && r.outcome == Aborted(paths[n], ChunkError(NeedAtLeastOneArray))
      && |r.saved| == n
  {
    var r := Process(paths, store, cfg);
    ChunkFileOutcome(paths[n], store[paths[n]], cfg.windowSize, cfg.stepSize);
    assert ChunkOne(paths[n], store, cfg) == Err(ChunkError(NeedAtLeastOneArray));
    assert r.outcome.Aborted?;
    var m := |r.saved|;
    assert ChunkOne(paths[m], store, cfg).Err?;
    assert n <= m;
    assert m <= n;
  }
}

=== FILE: chunker.dfy ===
/**
  The windowing engine: `chunk_mocap_file` cuts one motion-capture sequence
  into fixed-length windows along its time axis and describes each window
  with a metadata record.
*/
module Chunker {
  import opened Results
  import opened Arrays
  import opened PyRange
  import opened Decimal
  import Paths
  import Text

  /** Defaults of `chunk_mocap_file`. */
  const DefaultWindowSize := 30
  const DefaultStepSize := 15

  /**
    One metadata record `{id, file, start, end, chunk_id}`. The id is always
    built from the other fields, so it is derived here rather than stored.
  */
  datatype Meta = Meta(file: string, start: int, end: int, chunkId: nat) {
    function Id(): string {
      MakeId(file, start, end)
    }
  }

  /** What `chunk_mocap_file` returns: the stacked windows and their records. */
  datatype FileChunks<F> = FileChunks(chunks: Stacked<F>, metadata: seq<Meta>)

  /**
    The record id `f"{file}_{start}_{end}"`. It always decodes back to the
    file name and window it was built from, even when the file name itself
    contains `_`.
  */
  function MakeId(file: string, start: int, end: int): (r: string)
    ensures DecodeId(r) == Ok((file, start, end))
  {
    JoinedIdDecodes(file, start, end);
    file + "_" + IntToString(start) + "_" + IntToString(end)
  }

  /**
    Reads an id back into `(file, start, end)` by splitting at its last two
    underscores; the file part may itself contain underscores.
  */
  function DecodeId(id: string): Result<(string, int, int), string>
  {
    match Text.SplitLast(id, '_')
    case Err(_) => Err(id)
    case Ok((head, endText)) =>
      match Text.SplitLast(head, '_')
      case Err(_) => Err(id)
      case Ok((file, startText)) =>
        match (ParseInt(startText), ParseInt(endText))
        case (Ok(s), Ok(e)) => Ok((file, s, e))
        case _ => Err(id)
  }

  /** Splitting `file_start_end` at its last two underscores recovers the three parts. */
  lemma JoinedIdDecodes(file: string, start: int, end: int)
    ensures DecodeId(file + "_" + IntToString(start) + "_" + IntToString(end)) == Ok((file, start, end))
  {
    var s := IntToString(start);
    var e := IntToString(end);
    var head := file + "_" + s;
    assert file + "_" + s + "_" + e == head + "_" + e;
    Text.SplitLastSeparator(head, '_', e);
    Text.SplitLastSeparator(file, '_', s);
    IntRoundTrip(start);
    IntRoundTrip(end);
  }

  /** Different `(file, start, end)` triples never share an id. */
  lemma IdInjective(f1: string, s1: int, e1: int, f2: string, s2: int, e2: int)
    requires MakeId(f1, s1, e1) == MakeId(f2, s2, e2)
    ensures f1 == f2 && s1 == s2 && e1 == e2
  {
  }

  /** The slices `data[start:start + windowSize]`, one per start. */
  function Windows<F>(data: Grid<F>, starts: seq<int>, windowSize: int): (r: seq<Grid<F>>)
    requires data.Valid()
    ensures |r| == |starts|
    ensures forall k :: 0 <= k < |r| ==> r[k].Valid()
  {
    seq(|starts|, k requires 0 <= k < |starts| => Slice(data, starts[k], starts[k] + windowSize))
  }

  /** The records of the windows, numbered in emission order. */
  function Records(name: string, starts: seq<int>, windowSize: int): (r: seq<Meta>)
    ensures |r| == |starts|
  {
    seq(|starts|, k requires 0 <= k < |starts| =>
      var end := starts[k] + windowSize;
      Meta(name, starts[k], end, k))
  }

  /**
    The body of `chunk_mocap_file` after the transpose: `data` holds the
    frames along its first axis (`T = data.shape[0]`), `name` is the file
    name. The window starts are `range(0, T - window_size + 1, step_size)`,
    the k-th record describes the k-th window, and the windows are stacked.
  */
  function ChunkFrames<F>(name: string, data: Grid<F>, windowSize: int, stepSize: int): (r: Result<FileChunks<F>, ValueError>)
    requires data.Valid()
    ensures stepSize == 0 ==> r == Err(RangeStepZero)
    ensures r.Ok? ==>
      && stepSize != 0
      && var starts := RangeFrom(0, data.rows - windowSize + 1, stepSize);
      && |r.value.metadata| == |r.value.chunks.items| == |starts|
      && forall k :: 0 <= k < |r.value.metadata| ==>
           var m := r.value.metadata[k];
           && m.chunkId == k
           && m.start == starts[k]
           && m.end == m.start + windowSize
           && m.file == name
  {
    match Range(data.rows - windowSize + 1, stepSize)
    case Err(e) => Err(e)
    case Ok(starts) =>
      var chunks := Windows(data, starts, windowSize);
      var metadata := Records(name, starts, windowSize);
      match Stack(chunks)
      case Err(e) => Err(e)
      case Ok(stacked) => Ok(FileChunks(stacked, metadata))
  }

  /**
    `chunk_mocap_file(path, window_size, step_size)` on the array `raw` that
    `np.load(path)` returned, of shape (joints, time, dims): transpose to
    (time, joints, dims), take the base name without extension, and cut.
  */
  function ChunkFile<F>(path: string, raw: Grid<F>, windowSize: int, stepSize: int): (r: Result<FileChunks<F>, ValueError>)
    requires raw.Valid()
    ensures stepSize == 0 ==> r == Err(RangeStepZero)
    ensures r.Ok? ==>
      && r.value.chunks.cols == raw.rows
      && |r.value.metadata| == |RangeFrom(0, raw.cols - windowSize + 1, stepSize)|
      && forall k :: 0 <= k < |r.value.metadata| ==> r.value.metadata[k].file == Paths.FileStem(path)
  {
    ChunkFrames(Paths.FileStem(path), Transpose(raw), windowSize, stepSize)
  }

  /**
    A record is traceable when its id decodes to its own file and window.
    Since the id is derived, `MakeId`'s contract makes every record traceable;
    the lemmas below restate it only for the records they describe.
  */
  predicate Traceable(m: Meta) {
    DecodeId(m.Id()) == Ok((m.file, m.start, m.end))
  }

  /** With positive step, every range start gives a full in-bounds window. */
  lemma FullWindow<F>(data: Grid<F>, windowSize: int, stepSize: int, k: nat)
    requires data.Valid() && windowSize >= 0 && stepSize >= 1
    requires k < |RangeFrom(0, data.rows - windowSize + 1, stepSize)|
    ensures var starts := RangeFrom(0, data.rows - windowSize + 1, stepSize);
      && 0 <= starts[k] && starts[k] + windowSize <= data.rows
      && Windows(data, starts, windowSize)[k] == Slice(data, starts[k], starts[k] + windowSize)
      && Windows(data, starts, windowSize)[k].rows == windowSize
  {
    var starts := RangeFrom(0, data.rows - windowSize + 1, stepSize);
    RangeBounds(0, data.rows - windowSize + 1, stepSize);
    assert 0 <= starts[k] < data.rows - windowSize + 1;
  }

  /** The k-th window starts at `k * step_size`. */
  lemma StartIsMultiple<F>(name: string, data: Grid<F>, windowSize: int, stepSize: int, fc: FileChunks<F>, k: nat)
    requires data.Valid()
    requires ChunkFrames(name, data, windowSize, stepSize) == Ok(fc)
    requires k < |fc.metadata|
    ensures fc.metadata[k].start == k * stepSize
  {
    RangeElement(0, data.rows - windowSize + 1, stepSize, k);
  }

  /**
    With `window_size >= 1`, `step_size >= 1` and `window_size <= T` there are
    `(T - window_size) / step_size + 1` chunks and as many records.
  */
  lemma ChunkCount<F>(name: string, data: Grid<F>, windowSize: int, stepSize: int)
    requires data.Valid() && windowSize >= 1 && stepSize >= 1 && windowSize <= data.rows
    ensures var r := ChunkFrames(name, data, windowSize, stepSize);
      && r.Ok?
      && |r.value.metadata| == |r.value.chunks.items| == (data.rows - windowSize) / stepSize + 1
  {
    var stop := data.rows - windowSize + 1;
    RangeLength(stop, stepSize);
    RangeBounds(0, stop, stepSize);
    WindowsStack(data, windowSize, stepSize);
  }

  /** With a positive step all windows have the same shape, so `np.stack` accepts any non-empty list of them. */
  lemma WindowsStack<F>(data: Grid<F>, windowSize: int, stepSize: int)
    requires data.Valid() && windowSize >= 0 && stepSize >= 1
    ensures var starts := RangeFrom(0, data.rows - windowSize + 1, stepSize);
      |starts| > 0 ==> Stack(Windows(data, starts, windowSize)).Ok?
  {
    var starts := RangeFrom(0, data.rows - windowSize + 1, stepSize);
    var windows := Windows(data, starts, windowSize);
    forall k | 0 <= k < |windows|
      ensures windows[k].rows == windowSize && windows[k].cols == data.cols
    {
      FullWindow(data, windowSize, stepSize, k);
    }
  }

  /**
    Without a single window `np.stack([])` raises: this happens exactly when
    the range of starts is empty, which for a positive step means `T < window_size`
    and for a negative step means `T >= window_size - 1`.
  */
  lemma NoWindowFails<F>(name: string, data: Grid<F>, windowSize: int, stepSize: int)
    requires data.Valid()
    ensures ChunkFrames(name, data, windowSize, stepSize) == Err(NeedAtLeastOneArray) <==>
      (stepSize > 0 && data.rows < windowSize) || (stepSize < 0 && data.rows >= windowSize - 1)
  {
    if stepSize != 0 {
      RangeBounds(0, data.rows - windowSize + 1, stepSize);
    }
  }

  /** For the usual parameters the frames are chunked successfully exactly when `window_size <= T`. */
  lemma ChunkFramesSucceeds<F>(name: string, data: Grid<F>, windowSize: int, stepSize: int)
    requires data.Valid() && windowSize >= 1 && stepSize >= 1
    ensures ChunkFrames(name, data, windowSize, stepSize).Ok? <==> windowSize <= data.rows
  {
    if windowSize <= data.rows {
      ChunkCount(name, data, windowSize, stepSize);
    } else {
      NoWindowFails(name, data, windowSize, stepSize);
    }
  }

  /** Chunk `k` is the k-th window, as stacked by `np.stack`. */
  lemma ChunkIsWindow<F>(name: string, data: Grid<F>, windowSize: int, stepSize: int, fc: FileChunks<F>, k: nat)
    requires data.Valid()
    requires ChunkFrames(name, data, windowSize, stepSize) == Ok(fc)
    requires k < |fc.metadata|
    ensures stepSize != 0
    ensures fc.chunks.items[k] == Windows(data, RangeFrom(0, data.rows - windowSize + 1, stepSize), windowSize)[k].cells
  {
    var windows := Windows(data, RangeFrom(0, data.rows - windowSize + 1, stepSize), windowSize);
    assert Stack(windows) == Ok(fc.chunks);
  }

  /**
    Every window lies inside the sequence, and its chunk holds exactly the
    frames `[start, end)`, `window_size` of them.
  */
  lemma WindowBounds<F>(name: string, data: Grid<F>, windowSize: int, stepSize: int, fc: FileChunks<F>, k: nat)
    requires data.Valid() && windowSize >= 1 && stepSize >= 1
    requires ChunkFrames(name, data, windowSize, stepSize) == Ok(fc)
    requires k < |fc.metadata|
    ensures 0 <= fc.metadata[k].start && fc.metadata[k].end <= data.rows
    ensures |fc.chunks.items[k]| == windowSize
    ensures fc.chunks.items[k] == data.cells[fc.metadata[k].start..fc.metadata[k].end]
  {
    ChunkIsWindow(name, data, windowSize, stepSize, fc, k);
    FullWindow(data, windowSize, stepSize, k);
  }

  /** The stacked array is rectangular: every chunk is `window_size` frames of all joints. */
  lemma ChunksRectangular<F>(name: string, data: Grid<F>, windowSize: int, stepSize: int)
    requires data.Valid()
    requires ChunkFrames(name, data, windowSize, stepSize).Ok?
    ensures var a := ChunkFrames(name, data, windowSize, stepSize).value.chunks;
      && a.Valid()
      && a.cols == data.cols
      && (windowSize >= 1 && stepSize >= 1 ==> a.rows == windowSize)
  {
    if windowSize >= 1 && stepSize >= 1 {
      FullWindow(data, windowSize, stepSize, 0);
    }
  }

  /** With a positive step the window starts strictly increase in emission order. */
  lemma StartsIncrease<F>(name: string, data: Grid<F>, windowSize: int, stepSize: int)
    requires data.Valid() && stepSize >= 1
    requires ChunkFrames(name, data, windowSize, stepSize).Ok?
    ensures var ms := ChunkFrames(name, data, windowSize, stepSize).value.metadata;
      forall i, j :: 0 <= i < j < |ms| ==> ms[i].start < ms[j].start
  {
    var ms := ChunkFrames(name, data, windowSize, stepSize).value.metadata;
    var starts := RangeFrom(0, data.rows - windowSize + 1, stepSize);
    forall i, j | 0 <= i < j < |ms|
      ensures ms[i].start < ms[j].start
    {
      assert ms[i].start == starts[i] && ms[j].start == starts[j];
      RangeStrictlyMonotone(0, data.rows - windowSize + 1, stepSize, i, j);
    }
  }

  /** Two windows of `c` that start `step` apart share `w - step` elements. */
  lemma SliceOverlap<T>(x: seq<T>, y: seq<T>, c: seq<T>, a: int, b: int, w: int, step: int)
    requires 0 <= a && 0 <= step && b == a + step && 0 <= w && b + w <= |c|
    requires x == c[a..a + w] && y == c[b..b + w]
    ensures |x| == |y| == w
    ensures step < w ==> x[step..] == y[..w - step]
  {
    if step < w {
      assert x[step..] == c[b..a + w];
      assert y[..w - step] == c[b..a + w];
    }
  }

  /**
    Consecutive windows are `step_size` apart, so they overlap by
    `window_size - step_size` frames, and when that is positive the two
    chunks hold the same frames there.
  */
  lemma WindowsOverlap<F>(name: string, data: Grid<F>, windowSize: int, stepSize: int, fc: FileChunks<F>, k: nat)
    requires data.Valid() && windowSize >= 1 && stepSize >= 1
    requires ChunkFrames(name, data, windowSize, stepSize) == Ok(fc)
    requires k + 1 < |fc.metadata|
    ensures fc.metadata[k].end - fc.metadata[k + 1].start == windowSize - stepSize
    ensures |fc.chunks.items[k]| == |fc.chunks.items[k + 1]| == windowSize
    ensures stepSize < windowSize ==>
      fc.chunks.items[k][stepSize..] == fc.chunks.items[k + 1][..windowSize - stepSize]
  {
    var a, b := fc.metadata[k].start, fc.metadata[k + 1].start;
    RangeSuccessor(0, data.rows - windowSize + 1, stepSize, k);
    WindowBounds(name, data, windowSize, stepSize, fc, k);
    WindowBounds(name, data, windowSize, stepSize, fc, k + 1);
    SliceOverlap(fc.chunks.items[k], fc.chunks.items[k + 1], data.cells, a, b, windowSize, stepSize);
  }

  /** Within one file the ids are pairwise distinct and each one decodes to its record. */
  lemma FileIdsDistinct<F>(name: string, data: Grid<F>, windowSize: int, stepSize: int)
    requires data.Valid()
    requires ChunkFrames(name, data, windowSize, stepSize).Ok?
    ensures var ms := ChunkFrames(name, data, windowSize, stepSize).value.metadata;
      && (forall k :: 0 <= k < |ms| ==> Traceable(ms[k]))
      && forall i, j :: 0 <= i < j < |ms| ==> ms[i].Id() != ms[j].Id()
  {
    var fc := ChunkFrames(name, data, windowSize, stepSize).value;
    forall i, j | 0 <= i < j < |fc.metadata|
      ensures fc.metadata[i].Id() != fc.metadata[j].Id()
    {
      RecordIdsDiffer(name, data, windowSize, stepSize, fc, i, j);
    }
  }

  /** Two records of one file have different windows, hence different ids. */
  lemma RecordIdsDiffer<F>(name: string, data: Grid<F>, windowSize: int, stepSize: int, fc: FileChunks<F>, i: nat, j: nat)
    requires data.Valid()
    requires ChunkFrames(name, data, windowSize, stepSize) == Ok(fc)
    requires i < j < |fc.metadata|
    ensures fc.metadata[i].start != fc.metadata[j].start
    ensures fc.metadata[i].Id() != fc.metadata[j].Id()
  {
    var mi, mj := fc.metadata[i], fc.metadata[j];
    assert mi.start != mj.start by {
      RangeStrictlyMonotone(0, data.rows - windowSize + 1, stepSize, i, j);
    }
    if mi.Id() == mj.Id() {
      IdInjective(mi.file, mi.start, mi.end, mj.file, mj.start, mj.end);
    }
  }

  /** With the default window 30 and step 15, 100 frames give starts 0, 15, 30, 45, 60. */
  lemma ExampleHundredFrames<F>(name: string, data: Grid<F>)
    requires data.Valid() && data.rows == 100
    ensures var r := ChunkFrames(name, data, DefaultWindowSize, DefaultStepSize);
      && r.Ok?
      && |r.value.metadata| == 5
      && r.value.metadata[0].start == 0 && r.value.metadata[0].end == 30
      && r.value.metadata[1].start == 15 && r.value.metadata[1].end == 45
      && r.value.metadata[2].start == 30 && r.value.metadata[2].end == 60
      && r.value.metadata[3].start == 45 && r.value.metadata[3].end == 75
      && r.value.metadata[4].start == 60 && r.value.metadata[4].end == 90
  {
    ChunkCount(name, data, DefaultWindowSize, DefaultStepSize);
    assert RangeFrom(0, data.rows - 30 + 1, 15) == RangeFrom(0, 71, 15) == [0, 15, 30, 45, 60];
  }

  /**
    For a loaded array of shape (joints, time, dims): the time axis is the
    one cut, the outcome is decided by its length `T = raw.shape[1]`, and
    with the usual parameters there are `(T - window_size) / step_size + 1`
    chunks.
  */
  lemma ChunkFileOutcome<F>(path: string, raw: Grid<F>, windowSize: int, stepSize: int)
    requires raw.Valid()
    ensures ChunkFile(path, raw, windowSize, stepSize) == Err(NeedAtLeastOneArray) <==>
      (stepSize > 0 && raw.cols < windowSize) || (stepSize < 0 && raw.cols >= windowSize - 1)
    ensures windowSize >= 1 && stepSize >= 1 ==>
      (ChunkFile(path, raw, windowSize, stepSize).Ok? <==> windowSize <= raw.cols)
    ensures windowSize >= 1 && stepSize >= 1 && windowSize <= raw.cols ==>
      |ChunkFile(path, raw, windowSize, stepSize).value.chunks.items| == (raw.cols - windowSize) / stepSize + 1
  {
    var name, data := Paths.FileStem(path), Transpose(raw);
    NoWindowFails(name, data, windowSize, stepSize);
    if windowSize >= 1 && stepSize >= 1 {
      ChunkFramesSucceeds(name, data, windowSize, stepSize);
      if windowSize <= raw.cols {
        ChunkCount(name, data, windowSize, stepSize);
      }
    }
  }

  /**
    Chunk `k` of a loaded array is the window `[start, end)` of its time axis:
    entry `[t][j]` of the chunk is entry `[j][start + t]` of the array.
  */
  lemma ChunkOfRaw<F>(path: string, raw: Grid<F>, windowSize: int, stepSize: int, fc: FileChunks<F>, k: nat)
    requires raw.Valid() && windowSize >= 1 && stepSize >= 1
    requires ChunkFile(path, raw, windowSize, stepSize) == Ok(fc)
    requires k < |fc.metadata|
    ensures 0 <= fc.metadata[k].start && fc.metadata[k].end == fc.metadata[k].start + windowSize
    ensures fc.metadata[k].end <= raw.cols
    ensures |fc.chunks.items[k]| == windowSize
    ensures forall t :: 0 <= t < windowSize ==> |fc.chunks.items[k][t]| == raw.rows
    ensures forall t, j :: 0 <= t < windowSize && 0 <= j < raw.rows ==>
      fc.chunks.items[k][t][j] == raw.cells[j][fc.metadata[k].start + t]
  {
    var data := Transpose(raw);
    WindowBounds(Paths.FileStem(path), data, windowSize, stepSize, fc, k);
  }

  /** The ids of one file's records are pairwise distinct and decode to the file's stem. */
  lemma ChunkFileIds<F>(path: string, raw: Grid<F>, windowSize: int, stepSize: int)
    requires raw.Valid()
    requires ChunkFile(path, raw, windowSize, stepSize).Ok?
    ensures var ms := ChunkFile(path, raw, windowSize, stepSize).value.metadata;
      && (forall k :: 0 <= k < |ms| ==> Traceable(ms[k]) && ms[k].file == Paths.FileStem(path))
      && forall i, j :: 0 <= i < j < |ms| ==> ms[i].Id() != ms[j].Id()
  {
    FileIdsDistinct(Paths.FileStem(path), Transpose(raw), windowSize, stepSize);
  }
}

=== FILE: decimal.dfy ===
/** Python's `str()` of an integer (decimal, `-` for negatives) and its inverse. */
module Decimal {
  import opened Results

  predicate IsDigit(c: char) {
    '0' <= c <= '9'
  }

  predicate AllDigits(s: string) {
    forall i :: 0 <= i < |s| ==> IsDigit(s[i])
  }

  function DigitChar(d: nat): (c: char)
    requires d < 10
    ensures IsDigit(c)
  {
    ('0' as int + d) as char
  }

  function DigitValue(c: char): (d: nat)
    requires IsDigit(c)
    ensures d < 10
    ensures DigitChar(d) == c
  {
    (c as int - '0' as int) as nat
  }

  /** Decimal digits of `n`, most significant first, with no leading zeros. */
  function NatToString(n: nat): (s: string)
    ensures |s| > 0 && AllDigits(s)
    ensures |s| > 1 ==> s[0] != '0'
    decreases n
  {
    if n < 10 then [DigitChar(n)] else NatToString(n / 10) + [DigitChar(n % 10)]
  }

  /** `str(n)` for a Python `int`. */
  function IntToString(n: int): (s: string)
    ensures |s| > 0
    ensures n >= 0 ==> AllDigits(s)
    ensures n < 0 ==> s[0] == '-' && AllDigits(s[1..])
    ensures forall i :: 0 <= i < |s| ==> s[i] != '_'
    ensures var d := if n < 0 then s[1..] else s;
      |d| > 0 && (|d| > 1 ==> d[0] != '0')
  {
    if n < 0 then "-" + NatToString(-n) else NatToString(n)
  }

  /** The value of a non-empty digit string. */
  function DigitsValue(s: string): nat
    requires |s| > 0 && AllDigits(s)
  {
    if |s| == 1 then DigitValue(s[0])
    else 10 * DigitsValue(s[..|s| - 1]) + DigitValue(s[|s| - 1])
  }

  /** `int(s)` restricted to the strings `str` produces: an optional `-` then digits. */
  function ParseInt(s: string): (r: Result<int, string>)
    ensures r.Ok? ==> |s| > 0
  {
    if |s| > 1 && s[0] == '-' && AllDigits(s[1..]) then Ok(0 - DigitsValue(s[1..]) as int)
    else if |s| > 0 && AllDigits(s) then Ok(DigitsValue(s))
    else Err(s)
  }

  lemma {:induction false} NatRoundTrip(n: nat)
    ensures DigitsValue(NatToString(n)) == n
    decreases n
  {
    var s := NatToString(n);
    if n >= 10 {
      NatRoundTrip(n / 10);
      assert s[..|s| - 1] == NatToString(n / 10);
      assert DigitValue(s[|s| - 1]) == n % 10;
    } else {
      assert DigitValue(s[0]) == n;
    }
  }

  /** Parsing the decimal text of any integer gives that integer back. */
  lemma IntRoundTrip(n: int)
    ensures ParseInt(IntToString(n)) == Ok(n)
  {
    var s := IntToString(n);
    if n < 0 {
      var digits := NatToString(-n);
      NatRoundTrip(-n);
      assert s == "-" + digits;
      assert s[1..] == digits;
      assert |s| > 1 && s[0] == '-' && AllDigits(s[1..]);
    } else {
      NatRoundTrip(n);
      assert s == NatToString(n);
      assert !(|s| > 1 && s[0] == '-');
    }
  }
}

=== FILE: ordering.dfy ===
/**
  Python's `sorted` on a list of `str`: strings compare lexicographically by
  code point, a proper prefix ordering first.
*/
module StrOrder {

  /** `a <= b` for Python strings. */
  predicate Le(a: string, b: string)
    decreases |a|
  {
    |a| == 0 || (|b| > 0 && (a[0] < b[0] || (a[0] == b[0] && Le(a[1..], b[1..]))))
  }

  lemma {:induction false} LeReflexive(a: string)
    ensures Le(a, a)
    decreases |a|
  {
    if |a| > 0 {
      LeReflexive(a[1..]);
    }
  }

  lemma {:induction false} LeTotal(a: string, b: string)
    ensures Le(a, b) || Le(b, a)
    decreases |a|
  {
    if |a| > 0 && |b| > 0 && a[0] == b[0] {
      LeTotal(a[1..], b[1..]);
    }
  }

  lemma {:induction false} LeAntisymmetric(a: string, b: string)
    requires Le(a, b) && Le(b, a)
    ensures a == b
    decreases |a|
  {
    if |a| > 0 {
      LeAntisymmetric(a[1..], b[1..]);
      assert a == [a[0]] + a[1..] && b == [b[0]] + b[1..];
    }
  }

  lemma {:induction false} LeTransitive(a: string, b: string, c: string)
    requires Le(a, b) && Le(b, c)
    ensures Le(a, c)
    decreases |a|
  {
    if |a| > 0 && a[0] == b[0] && b[0] == c[0] {
      LeTransitive(a[1..], b[1..], c[1..]);
    }
  }

  predicate Sorted(s: seq<string>) {
    forall i, j :: 0 <= i < j < |s| ==> Le(s[i], s[j])
  }

  /** Places `x` into the sorted list `s`. */
  function Insert(x: string, s: seq<string>): (r: seq<string>)
    requires Sorted(s)
    ensures Sorted(r)
    ensures multiset(r) == multiset(s) + multiset{x}
  {
    if |s| == 0 then [x]
    else if Le(x, s[0]) then
      forall j | 0 <= j < |s|
        ensures Le(x, s[j])
      {
        if j > 0 { LeTransitive(x, s[0], s[j]); }
      }
      [x] + s
    else
      var rest := Insert(x, s[1..]);
      assert s == [s[0]] + s[1..];
      LeTotal(x, s[0]);
      forall j | 0 <= j < |rest|
        ensures Le(s[0], rest[j])
      {
        assert rest[j] in multiset(rest);
        if rest[j] != x {
          assert rest[j] in multiset(s[1..]);
          var k :| 0 <= k < |s[1..]| && s[1..][k] == rest[j];
          assert s[k + 1] == rest[j];
        }
      }
      [s[0]] + rest
  }

  /** `sorted(s)`, by insertion. */
  function Sort(s: seq<string>): (r: seq<string>)
    ensures Sorted(r)
    ensures multiset(r) == multiset(s)
  {
    if |s| == 0 then []
    else
      assert s == [s[0]] + s[1..];
      Insert(s[0], Sort(s[1..]))
  }

  /** The head of a sorted list is at most every string in it. */
  lemma SortedHeadLeast(a: seq<string>, x: string)
    requires Sorted(a) && x in multiset(a)
    ensures Le(a[0], x)
  {
    var i :| 0 <= i < |a| && a[i] == x;
    if i == 0 {
      LeReflexive(x);
    }
  }

  lemma SortedTail(a: seq<string>)
    requires Sorted(a) && |a| > 0
    ensures Sorted(a[1..])
  {
    forall i, j | 0 <= i < j < |a| - 1
      ensures Le(a[1..][i], a[1..][j])
    {
      assert a[1..][i] == a[i + 1] && a[1..][j] == a[j + 1];
    }
  }

  lemma TailsSameStrings(a: seq<string>, b: seq<string>)
    requires |a| > 0 && |b| > 0 && a[0] == b[0] && multiset(a) == multiset(b)
    ensures multiset(a[1..]) == multiset(b[1..])
  {
    assert a == [a[0]] + a[1..] && b == [b[0]] + b[1..];
    assert multiset(a[1..]) == multiset(a) - multiset{a[0]};
    assert multiset(b[1..]) == multiset(b) - multiset{b[0]};
  }

  /** Two sorted lists holding the same strings are the same list. */
  lemma {:induction false} SortedUnique(a: seq<string>, b: seq<string>)
    requires Sorted(a) && Sorted(b)
    requires multiset(a) == multiset(b)
    ensures a == b
    decreases |a|
  {
    if |a| > 0 {
      assert a[0] in multiset(a);
      assert |b| > 0 by {
        assert a[0] in multiset(b);
      }
      assert b[0] in multiset(b);
      SortedHeadLeast(a, b[0]);
      SortedHeadLeast(b, a[0]);
      LeAntisymmetric(a[0], b[0]);
      SortedTail(a);
      SortedTail(b);
      TailsSameStrings(a, b);
      SortedUnique(a[1..], b[1..]);
      assert a == [a[0]] + a[1..] && b == [b[0]] + b[1..];
    } else {
      assert |multiset(b)| == 0;
    }
  }

  /** The sorted order depends only on which strings are listed, not on their listing order. */
  lemma SortDeterministic(x: seq<string>, y: seq<string>)
    requires multiset(x) == multiset(y)
    ensures Sort(x) == Sort(y)
  {
    SortedUnique(Sort(x), Sort(y));
  }
}

=== FILE: paths.dfy ===
/**
  POSIX path helpers the chunker uses: `os.path.basename`,
  `os.path.splitext(...)[0]` and `os.path.join` of two components.
*/
module Paths {
  import opened Text

  /** `os.path.basename(p)`: everything after the last `/`. */
  function Basename(p: string): (b: string)
    ensures forall k :: 0 <= k < |b| ==> b[k] != '/'
    ensures |b| <= |p| && b == p[|p| - |b|..]
    ensures (exists k :: 0 <= k < |p| && p[k] == '/') ==> |b| < |p| && p[|p| - |b| - 1] == '/'
    ensures (forall k :: 0 <= k < |p| ==> p[k] != '/') ==> b == p
  {
    var i := AfterLast(p, '/');
    assert p == p[..i] + p[i..];
    p[i..]
  }

  /**
    Root of `os.path.splitext(b)` for a name `b` without `/`: the part before
    the last `.`, unless every character before that dot is itself a dot
    (a leading-dot name such as `.bashrc` has no extension).
  */
  function SplitExtRoot(b: string): (r: string)
    ensures |r| <= |b| && r == b[..|r|]
  {
    var d := AfterLast(b, '.');
    if d > 0 && exists k :: 0 <= k < d - 1 && b[k] != '.' then b[..d - 1] else b
  }

  /**
    The splitext rule: a shorter root stops just before the last `.` and
    keeps some character other than `.` (leading dots stay in the root), and
    the root is shorter whenever some `.` follows a character other than `.`.
  */
  lemma SplitExtRule(b: string)
    ensures var r := SplitExtRoot(b);
      |r| < |b| ==>
        && b[|r|] == '.'
        && (forall k :: |r| < k < |b| ==> b[k] != '.')
        && (exists k :: 0 <= k < |r| && b[k] != '.')
    ensures (exists k, d :: 0 <= k < d < |b| && b[k] != '.' && b[d] == '.') ==> |SplitExtRoot(b)| < |b|
  {
  }

  /** `os.path.splitext(os.path.basename(p))[0]`, the name a file's chunks are filed under. */
  function FileStem(p: string): (r: string)
    ensures forall k :: 0 <= k < |r| ==> r[k] != '/'
  {
    SplitExtRoot(Basename(p))
  }

  /** A name the pattern `*.npy` matches: glob skips names that start with `.`. */
  predicate GlobNpy(name: string) {
    |name| > 4 && name[|name| - 4..] == ".npy" && name[0] != '.'
  }

  /** For every path glob returns, the stem is the base name minus `.npy`. */
  lemma StemOfGlobbedPath(p: string)
    requires GlobNpy(Basename(p))
    ensures FileStem(p) + ".npy" == Basename(p)
  {
    var b := Basename(p);
    var d := AfterLast(b, '.');
    assert b[|b| - 4] == '.';
    assert d == |b| - 3;
    assert b[0] != '.';
    assert b == b[..d - 1] + ".npy";
  }

  /**
    `os.path.join(a, b)` of two components: an absolute `b` replaces `a`;
    otherwise `b` follows `a`, with one `/` between them unless `a` is empty
    or already ends in `/`.
  */
  function Join(a: string, b: string): (r: string)
    ensures |b| <= |r| && r[|r| - |b|..] == b
    ensures |b| == 0 || b[0] != '/' ==> |a| <= |r| - |b| && r[..|a|] == a
    ensures |b| == 0 || b[0] != '/' ==>
      r == a + (if |a| == 0 || a[|a| - 1] == '/' then "" else "/") + b
    ensures |b| > 0 && b[0] == '/' ==> r == b
  {
    if |b| > 0 && b[0] == '/' then b
    else if |a| == 0 || a[|a| - 1] == '/' then a + b
    else
      assert a + "/" + b == (a + "/") + b;
      a + "/" + b
  }

  /** Joining one directory with different relative names gives different paths. */
  lemma JoinInjective(dir: string, b1: string, b2: string)
    requires |b1| > 0 && b1[0] != '/' && |b2| > 0 && b2[0] != '/'
    requires b1 != b2
    ensures Join(dir, b1) != Join(dir, b2)
  {
    var sep := if |dir| == 0 || dir[|dir| - 1] == '/' then dir else dir + "/";
    assert Join(dir, b1) == sep + b1 && Join(dir, b2) == sep + b2;
    assert (sep + b1)[|sep|..] == b1 && (sep + b2)[|sep|..] == b2;
  }

  /**
    A name without `/` joined to a directory is the base name of the result,
    and what precedes it is the directory with one trailing `/` (none added
    to an empty directory or one that already ends in `/`).
  */
  lemma BasenameOfJoin(dir: string, name: string)
    requires forall k :: 0 <= k < |name| ==> name[k] != '/'
    ensures Basename(Join(dir, name)) == name
    ensures var r := Join(dir, name);
      r[..|r| - |name|] == if |dir| == 0 || dir[|dir| - 1] == '/' then dir else dir + "/"
  {
    var sep := if |dir| == 0 || dir[|dir| - 1] == '/' then dir else dir + "/";
    assert Join(dir, name) == sep + name;
    AfterLastOfSuffix(sep, '/', name);
    assert (sep + name)[|sep|..] == name;
    assert (sep + name)[..|sep|] == sep;
  }
}

=== FILE: pyrange.dfy ===
/** Python's built-in `range(start, stop, step)`, as the list of values it yields. */
module PyRange {
  import opened Results

  /**
    The values `start, start + step, start + 2*step, ...` that lie strictly
    before `stop` in the direction of `step`.
  */
  function RangeFrom(start: int, stop: int, step: int): seq<int>
    requires step != 0
    decreases if step > 0 then stop - start else start - stop
  {
    if (step > 0 && start < stop) || (step < 0 && start > stop) then
      [start] + RangeFrom(start + step, stop, step)
    else
      []
  }

  /**
    A range starts at `start`, stays strictly before `stop` in the step's
    direction, is empty exactly when `stop` is not past `start`, and its last
    value is the last one before `stop`.
  */
  lemma {:induction false} RangeBounds(start: int, stop: int, step: int)
    requires step != 0
    ensures var r := RangeFrom(start, stop, step);
      && (|r| > 0 ==> r[0] == start)
      && (step > 0 ==> forall k :: 0 <= k < |r| ==> start <= r[k] < stop)
      && (step < 0 ==> forall k :: 0 <= k < |r| ==> stop < r[k] <= start)
      && (|r| == 0 <==> if step > 0 then stop <= start else start <= stop)
      && (|r| > 0 && step > 0 ==> stop <= r[|r| - 1] + step)
      && (|r| > 0 && step < 0 ==> r[|r| - 1] + step <= stop)
    decreases if step > 0 then stop - start else start - stop
  {
    if (step > 0 && start < stop) || (step < 0 && start > stop) {
      var rest := RangeFrom(start + step, stop, step);
      RangeBounds(start + step, stop, step);
      var r := [start] + rest;
      assert RangeFrom(start, stop, step) == r;
      assert forall k :: 1 <= k < |r| ==> r[k] == rest[k - 1];
      assert r[|r| - 1] == if |rest| == 0 then start else rest[|rest| - 1];
    }
  }

  /**
    `range(0, stop, step)`: a step of zero raises `ValueError`; otherwise the
    k-th value is `k * step`, and there are `ceil(stop / step)` values, none
    when `stop` is not past 0 in the step's direction.
  */
  function Range(stop: int, step: int): (r: Result<seq<int>, ValueError>)
    ensures r.Err? <==> step == 0
    ensures r.Err? ==> r.error == RangeStepZero
    ensures r.Ok? ==> forall k :: 0 <= k < |r.value| ==> r.value[k] == k * step
    ensures r.Ok? && step > 0 ==> |r.value| == if stop <= 0 then 0 else (stop - 1) / step + 1
    ensures r.Ok? && step < 0 ==> |r.value| == if stop >= 0 then 0 else (-stop - 1) / -step + 1
    ensures r.Ok? ==> r.value == RangeFrom(0, stop, step)
  {
    if step == 0 then Err(RangeStepZero)
    else
      RangeContents(stop, step);
      Ok(RangeFrom(0, stop, step))
  }

  /** The values and the length of `range(0, stop, step)` for either step sign. */
  lemma RangeContents(stop: int, step: int)
    requires step != 0
    ensures var r := RangeFrom(0, stop, step);
      forall k :: 0 <= k < |r| ==> r[k] == k * step
    ensures step > 0 ==> |RangeFrom(0, stop, step)| == if stop <= 0 then 0 else (stop - 1) / step + 1
    ensures step < 0 ==> |RangeFrom(0, stop, step)| == if stop >= 0 then 0 else (-stop - 1) / -step + 1
  {
    var r := RangeFrom(0, stop, step);
    forall k | 0 <= k < |r|
      ensures r[k] == k * step
    {
      RangeElement(0, stop, step, k);
    }
    if step > 0 {
      RangeLength(stop, step);
    } else {
      RangeMirror(0, stop, step);
      RangeLength(-stop, -step);
    }
  }

  /** Negating start, stop and step mirrors a range without changing its length. */
  lemma {:induction false} RangeMirror(start: int, stop: int, step: int)
    requires step != 0
    ensures |RangeFrom(start, stop, step)| == |RangeFrom(-start, -stop, -step)|
    decreases if step > 0 then stop - start else start - stop
  {
    if (step > 0 && start < stop) || (step < 0 && start > stop) {
      RangeMirror(start + step, stop, step);
      assert -(start + step) == -start + -step;
    }
  }

  /** Consecutive values of a range differ by exactly `step`. */
  lemma {:induction false} RangeSuccessor(start: int, stop: int, step: int, k: nat)
    requires step != 0 && k + 1 < |RangeFrom(start, stop, step)|
    ensures RangeFrom(start, stop, step)[k + 1] == RangeFrom(start, stop, step)[k] + step
    decreases k
  {
    var rest := RangeFrom(start + step, stop, step);
    assert RangeFrom(start, stop, step) == [start] + rest;
    if k > 0 {
      RangeSuccessor(start + step, stop, step, k - 1);
    }
  }

  /** `step + (k - 1) * step == k * step`. */
  lemma ShiftProduct(k: int, step: int)
    ensures step + (k - 1) * step == k * step
  {
  }

  lemma MulMonotone(a: int, b: int, c: int)
    requires a <= b && c > 0
    ensures a * c <= b * c
  {
  }

  lemma MulStrict(i: int, j: int, step: int)
    requires i < j && step >= 1
    ensures i * step < j * step
  {
    MulMonotone(i + 1, j, step);
    ShiftProduct(i + 1, step);
  }

  lemma MulStrictNegative(i: int, j: int, step: int)
    requires i < j && step <= -1
    ensures i * step > j * step
  {
    MulStrict(i, j, -step);
    assert i * (-step) == -(i * step) && j * (-step) == -(j * step);
  }

  /** The k-th value of a range is `start + k * step`. */
  lemma {:induction false} RangeElement(start: int, stop: int, step: int, k: nat)
    requires step != 0 && k < |RangeFrom(start, stop, step)|
    ensures RangeFrom(start, stop, step)[k] == start + k * step
    decreases k
  {
    if k > 0 {
      var rest := RangeFrom(start + step, stop, step);
      assert RangeFrom(start, stop, step) == [start] + rest;
      RangeElement(start + step, stop, step, k - 1);
      ShiftProduct(k, step);
    }
  }

  /** The only `n` with `(n - 1) * step < stop <= n * step` is `(stop - 1) / step + 1`. */
  lemma CeilQuotient(n: int, stop: int, step: int)
    requires step > 0 && (n - 1) * step < stop <= n * step
    ensures n == (stop - 1) / step + 1
  {
    var q := (stop - 1) / step;
    assert q * step <= stop - 1 < (q + 1) * step;
    if n - 1 > q {
      MulMonotone(q + 1, n - 1, step);
    }
    if n - 1 < q {
      MulMonotone(n, q, step);
    }
  }

  /**
    With a positive step the range holds `ceil(stop / step)` values, written
    `(stop - 1) / step + 1` with Dafny's (floor, for these operands) division.
  */
  lemma RangeLength(stop: int, step: int)
    requires step > 0
    ensures |RangeFrom(0, stop, step)| == if stop <= 0 then 0 else (stop - 1) / step + 1
  {
    var n := |RangeFrom(0, stop, step)|;
    RangeBounds(0, stop, step);
    if stop > 0 {
      RangeElement(0, stop, step, n - 1);
      ShiftProduct(n, step);
      CeilQuotient(n, stop, step);
    }
  }

  /** The values of a range move strictly in the direction of the step. */
  lemma RangeStrictlyMonotone(start: int, stop: int, step: int, i: nat, j: nat)
    requires step != 0
    requires i < j < |RangeFrom(start, stop, step)|
    ensures step > 0 ==> RangeFrom(start, stop, step)[i] < RangeFrom(start, stop, step)[j]
    ensures step < 0 ==> RangeFrom(start, stop, step)[i] > RangeFrom(start, stop, step)[j]
  {
    RangeElement(start, stop, step, i);
    RangeElement(start, stop, step, j);
    if step > 0 {
      MulStrict(i, j, step);
    } else {
      MulStrictNegative(i, j, step);
    }
  }
}

=== FILE: results.dfy ===
/** Failure-carrying results and the Python exceptions the chunker can raise. */
module Results {

  /** Either a value or the error that a Python call raised instead. */
  datatype Result<+T, +E> = Ok(value: T) | Err(error: E)

  /** The `ValueError`s raised inside the chunking of one file. */
  datatype ValueError =
    | RangeStepZero        // `range()` called with a step of 0
    | NeedAtLeastOneArray  // `np.stack([])`
    | ShapeMismatch        // `np.stack` over arrays of different shapes
}

=== FILE: text.dfy ===
/** Searching and splitting text at the last occurrence of a character. */
module Text {
  import opened Results

  /** Index just past the last occurrence of `c` in `s` (0 when absent). */
  function AfterLast(s: string, c: char): (i: nat)
    ensures i <= |s|
    ensures i > 0 ==> s[i - 1] == c
    ensures forall k :: i <= k < |s| ==> s[k] != c
  {
    if |s| == 0 then 0
    else if s[|s| - 1] == c then |s|
    else AfterLast(s[..|s| - 1], c)
  }

  /** The last `c` in `s + [c] + t` is the separator itself when `t` holds no `c`. */
  lemma {:induction false} AfterLastSeparator(s: string, c: char, t: string)
    requires forall k :: 0 <= k < |t| ==> t[k] != c
    ensures AfterLast(s + [c] + t, c) == |s| + 1
    decreases |t|
  {
    var u := s + [c] + t;
    if |t| > 0 {
      assert u[..|u| - 1] == s + [c] + t[..|t| - 1];
      AfterLastSeparator(s, c, t[..|t| - 1]);
    }
  }

  /** Splits `s` at its last `c` into the text before and the text after it. */
  function SplitLast(s: string, c: char): (r: Result<(string, string), string>)
    ensures r.Ok? ==> s == r.value.0 + [c] + r.value.1
    ensures r.Ok? ==> forall k :: 0 <= k < |r.value.1| ==> r.value.1[k] != c
    ensures r.Err? <==> forall k :: 0 <= k < |s| ==> s[k] != c
  {
    var i := AfterLast(s, c);
    if i == 0 then Err(s)
    else
      assert s == s[..i - 1] + [c] + s[i..];
      Ok((s[..i - 1], s[i..]))
  }

  /** Splitting at the last `c` undoes joining with `c` when the tail has no `c`. */
  lemma SplitLastSeparator(s: string, c: char, t: string)
    requires forall k :: 0 <= k < |t| ==> t[k] != c
    ensures SplitLast(s + [c] + t, c) == Ok((s, t))
  {
    var u := s + [c] + t;
    AfterLastSeparator(s, c, t);
    assert u[..|s|] == s && u[|s| + 1..] == t;
  }

  /** The last `c` of `s + t` is the end of `s` when `s` is empty or ends in `c` and `t` has none. */
  lemma AfterLastOfSuffix(s: string, c: char, t: string)
    requires |s| == 0 || s[|s| - 1] == c
    requires forall k :: 0 <= k < |t| ==> t[k] != c
    ensures AfterLast(s + t, c) == |s|
  {
    if |s| > 0 {
      assert s + t == s[..|s| - 1] + [c] + t;
      AfterLastSeparator(s[..|s| - 1], c, t);
    } else {
      assert s + t == t;
    }
  }
}
